=== FILE: README.md ===
# Parameterized activation over a dependency container

This project is a Dafny model of the core of DependencyInjection.Extensions.Parameterization. That library lets a registration in a Microsoft DI service collection say how to build some leading constructor arguments of the type it registers. An argument is a literal, an instance looked up from the container by type, or an options object bound from a configuration section. The container supplies the remaining arguments as usual.

The model has four modules:

- `Runtime` (`runtime.dfy`) holds the collaborators. Runtime types know whether they implement `IDisposable` and which interfaces they implement. Objects are scalars, constructed instances with an identity, options wrappers and configuration objects. The service provider is a map from type to instance. `GetRequiredService` fails on an unregistered type. Fetching configuration is a required lookup followed by a cast. The cast succeeds only for a configuration object whose runtime type is, or implements, the requested interface. Two foreign operations are function parameters with no fixed meaning. `Binder` is default construction plus configuration binding: it returns the fields that binding a section writes into a default instance, or the exception construction or binding raises. `Activator` is `ActivatorUtilities.CreateInstance`: it returns the state the chosen constructor leaves in the new instance, or the exception it raises. `Activate` allocates that instance, of exactly the requested type, under an identity the caller reserves.
- `Parameters` (`parameter_builder.dfy`) holds the builder. `Parameter` is the closed set of descriptor kinds: `ValueParameter`, `TypeParameter` and `OptionsParameter`. `ParameterBuilder` is the ordered descriptor list, with the fluent `Value`, `Type` and `Options`. `Build` materialises the lazy enumeration as a left fold (`Step`, `Evaluate`) that produces a `Run`. A `Run` holds the arguments yielded so far, the container queries made (`ServiceLookup`, `ConfigurationLookup`), the memoised configuration (the `Lazy<>`), the next fresh object identity, and the exception that ended the enumeration, if any. `Resolvable`, `FailureOf` and `ExpectedAt` are a reference definition of what each descriptor resolves to, written independently of the fold. The lemmas connect the two.
- `Registration` (`service_collection_extensions.dfy`) covers the rest of `ServiceCollectionExtensions.cs`. That file embeds an older copy of `ParameterBuilder`. The copy is identical except that it requests configuration as `IConfigurationRoot` instead of `IConfiguration`. Both copies are modelled by the one `Evaluate`, parameterised by the configuration service type. `ParameterBuilder.Build` passes `IConfiguration` and `LegacyBuild` passes `IConfigurationRoot`. The fluent methods of the embedded copy (ServiceCollectionExtensions.cs:32-63) are the same `Value`, `Type` and `Options` functions. The six registration overloads append a `ServiceDescriptor` carrying a lifetime. `Resolve` is the factory those registrations install.
- `Activation` (`activator_factory.dfy`) is the activation tracker, `ActivatorFactory`, whose members are the method set of `IActivatorFactory`. It is a LIFO stack of tracked disposables held as a sequence whose last element is the top. `Dispose` takes a predicate saying which instances' own `Dispose` throws.

The source mutates the builder and the tracker in place. The model threads state explicitly: every operation returns the updated value. A fluent call that returns `this` becomes a function that returns the extended builder. Object allocation is an identity counter (`next`) threaded through resolution and activation. Each options instance and each activated instance takes the next identity, so "a new instance" means "an identity not handed out before". Objects that already exist (container instances, literals handed to `Value`, tracked instances) are distinct from a new one only when their identities lie below the counter, as `IdsBelow` states. The freshness guarantees against such objects are stated under that condition.

The builder in the source has three descriptor kinds. Nested activation (`.Type<T>(pb => …)`, `.Type<I, T>(…)`) and computed factories (`.Factory(…)`) are called by demo programs, but no builder method in the source defines them. They are not part of this model. The source's `Dispose` has no exception isolation: the first throwing `Dispose` ends the drain and the remaining instances stay tracked. The model follows the code, not a more forgiving sweep.

## Model

| member | source | states |
|---|---|---|
| `Runtime.GetConfiguration` | DependencyInjection.Extensions.Parameterization/ParameterBuilder.cs:66 | the configuration request fails with not-registered when nothing is registered under the interface. It succeeds, with the registered object's entries, if and only if that object is a configuration whose runtime type is or implements the interface; otherwise the cast fails |
| `Runtime.Activate` | DependencyInjection.Extensions.Parameterization/ActivatorFactory.cs:19 | an activation either fails with the activator's exception or yields a new instance whose runtime type is exactly the requested type and whose identity is the reserved one |
| `Parameters.ParameterBuilder.Value` | DependencyInjection.Extensions.Parameterization/ParameterBuilder.cs:31-38 | appends exactly one literal descriptor at the end; every earlier descriptor is kept in place |
| `Parameters.ParameterBuilder.Type` | DependencyInjection.Extensions.Parameterization/ParameterBuilder.cs:40-47 | appends exactly one by-type descriptor at the end; every earlier descriptor is kept in place |
| `Parameters.ParameterBuilder.Options` | DependencyInjection.Extensions.Parameterization/ParameterBuilder.cs:49-62 | appends exactly one options descriptor for the given shape and section key at the end; every earlier descriptor is kept in place |
| `Parameters.ParameterBuilder.Build` | DependencyInjection.Extensions.Parameterization/ParameterBuilder.cs:64-85 | the build succeeds if and only if every descriptor resolves, and then yields the reference argument vector. Every argument yielded is its descriptor's reference value. A failure comes at the first unresolvable descriptor, with that descriptor's exception |
| `Parameters.Step` | DependencyInjection.Extensions.Parameterization/ParameterBuilder.cs:70-83 | one loop iteration adds exactly one argument when its descriptor resolves. Otherwise it ends the enumeration with that descriptor's exception and adds nothing. It makes at most one container query, an ended enumeration stays as it is, and the memoised configuration stays what the configuration service yields |
| `Parameters.Evaluate` | DependencyInjection.Extensions.Parameterization/ParameterBuilder.cs:68-84 | an enumeration that has raised stays as it is; the yielded arguments, the query trace and the identity counter only grow |
| `Parameters.EvaluateAppend` | DependencyInjection.Extensions.Parameterization/ParameterBuilder.cs:68-84 | forward-only iteration: the last descriptor is resolved only after all earlier ones, starting from the state they left |
| `Parameters.EvaluateConcat` | DependencyInjection.Extensions.Parameterization/ParameterBuilder.cs:68-84 | enumerating a concatenation enumerates the second part from where the first part stopped |
| `Parameters.FailureLeavesRestUnevaluated` | DependencyInjection.Extensions.Parameterization/ParameterBuilder.cs:64-85 | once a descriptor raises, whatever descriptors follow are never evaluated and change nothing |
| `Parameters.ResolvesInOrder` | DependencyInjection.Extensions.Parameterization/ParameterBuilder.cs:64-85 | argument i is the reference value of descriptor i. On success there is one argument per descriptor. A failure happens at the first unresolvable descriptor, carries its exception, and comes after exactly the arguments before it |
| `Parameters.BuildSucceedsIffAllResolvable` | DependencyInjection.Extensions.Parameterization/ParameterBuilder.cs:68-84 | the build succeeds if and only if every descriptor resolves, and then yields exactly the reference argument vector |
| `Parameters.ValueOnlyYieldsLiterals` | DependencyInjection.Extensions.Parameterization/ParameterBuilder.cs:72-74 | a literal-only specification yields exactly its literals in order, makes no container query and allocates nothing |
| `Parameters.ConfigurationFetchedAtMostOnce` | DependencyInjection.Extensions.Parameterization/ParameterBuilder.cs:66-82 | configuration is requested at most once per enumeration, only after an options descriptor is reached, and stays memoised after the first options descriptor |
| `Parameters.NoOptionsNeverNeedsConfiguration` | DependencyInjection.Extensions.Parameterization/ParameterBuilder.cs:66-82 | without options descriptors, the configuration service key, the binder and whether configuration is registered at all do not affect the result; configuration is never requested |
| `Parameters.SameConfigurationSameResolution` | DependencyInjection.Extensions.Parameterization/ParameterBuilder.cs:66-82 | resolution depends on the configuration service only through the configuration it yields |
| `Parameters.OptionsArgumentsAreFresh` | DependencyInjection.Extensions.Parameterization/ParameterBuilder.cs:54-58 | every options argument wraps a new instance. Within one enumeration the identities increase with the descriptor position and none was handed out before the enumeration started |
| `Parameters.OptionsArgumentsAreNew` | DependencyInjection.Extensions.Parameterization/ParameterBuilder.cs:54-58 | when the container's instances and the literals existed before the enumeration started, every options argument is none of the container's instances and none of the other arguments |
| `Parameters.ResolutionIgnoresStartIdentity` | DependencyInjection.Extensions.Parameterization/ParameterBuilder.cs:64-85 | where identity allocation starts changes only identities: the outcome, literals, looked-up instances and bound settings are the same |
| `Parameters.RebuildingCreatesFreshOptions` | DependencyInjection.Extensions.Parameterization/ParameterBuilder.cs:54-58 | enumerating the same builder again gives the same outcome, literals, lookups and bound settings. Every options argument of the second enumeration is a different object from every options argument of the first, because their identities lie in disjoint ranges |
| `Parameters.BuildAfterValue` | DependencyInjection.Extensions.Parameterization/ParameterBuilder.cs:72-74 | after `Value(obj)` the enumeration yields `obj` verbatim after the earlier arguments, with no container query |
| `Parameters.BuildAfterType` | DependencyInjection.Extensions.Parameterization/ParameterBuilder.cs:76-78 | after `Type(t)` the enumeration makes one more required lookup of `t`. It yields the registered instance, or fails with not-registered when `t` is missing |
| `Parameters.BuildAfterOptions` | DependencyInjection.Extensions.Parameterization/ParameterBuilder.cs:80-82 | after `Options(shape, key)` the enumeration yields one wrapped value bound from section `key` into a default `shape` instance with a fresh identity. It requests configuration only if nothing before did. It fails with the configuration lookup's exception, or with the binder's when binding fails |
| `Registration.LegacyBuild` | DependencyInjection.Extensions.Parameterization/ServiceCollectionExtensions.cs:65-86 | the embedded builder's enumeration, requesting `IConfigurationRoot`, succeeds if and only if every descriptor resolves. It then yields the reference argument vector; otherwise it fails at the first unresolvable descriptor with its exception |
| `Registration.RevisionsAgree` | DependencyInjection.Extensions.Parameterization/ServiceCollectionExtensions.cs:65-86 | the embedded builder resolves like the standalone one when both configuration interfaces give the same configuration, and always when there are no options descriptors |
| `Registration.LegacyConfigurationFetchedAtMostOnce` | DependencyInjection.Extensions.Parameterization/ServiceCollectionExtensions.cs:67-83 | the embedded builder requests `IConfigurationRoot` at most once per enumeration, only after reaching an options descriptor, and memoises what that service yields |
| `Registration.LegacyOptionsRequireConfigurationRoot` | DependencyInjection.Extensions.Parameterization/ServiceCollectionExtensions.cs:67 | an options descriptor of the embedded builder fails with not-registered when no `IConfigurationRoot` is registered, and with the cast exception when the registered object is not a configuration whose type implements `IConfigurationRoot`; it yields nothing |
| `Registration.Add` | DependencyInjection.Extensions.Parameterization/ServiceCollectionExtensions.cs:91-116 | a registration appends exactly one factory entry with the given service type, lifetime, implementation and callback; earlier entries are unchanged |
| `Registration.AddSingleton` | DependencyInjection.Extensions.Parameterization/ServiceCollectionExtensions.cs:91-93 | one new singleton entry whose service type and implementation are the single type argument, carrying the caller's callback |
| `Registration.AddScoped` | DependencyInjection.Extensions.Parameterization/ServiceCollectionExtensions.cs:95-97 | one new scoped entry whose service type and implementation are the single type argument, carrying the caller's callback |
| `Registration.AddTransient` | DependencyInjection.Extensions.Parameterization/ServiceCollectionExtensions.cs:99-101 | one new transient entry whose service type and implementation are the single type argument, carrying the caller's callback |
| `Registration.AddSingletonAs` | DependencyInjection.Extensions.Parameterization/ServiceCollectionExtensions.cs:103-106 | one new singleton entry registered under the interface type, constructing the implementation type, carrying the caller's callback |
| `Registration.AddScopedAs` | DependencyInjection.Extensions.Parameterization/ServiceCollectionExtensions.cs:108-111 | one new scoped entry registered under the interface type, constructing the implementation type, carrying the caller's callback |
| `Registration.AddTransientAs` | DependencyInjection.Extensions.Parameterization/ServiceCollectionExtensions.cs:113-116 | one new transient entry registered under the interface type, constructing the implementation type, carrying the caller's callback |
| `Registration.Resolve` | DependencyInjection.Extensions.Parameterization/ServiceCollectionExtensions.cs:118-126 | the callback runs once on an empty builder. If it throws, its exception is the outcome and nothing is activated. Otherwise the implementation is activated with the reference arguments of the descriptors it left, into a new instance whose runtime type is the implementation and whose identity comes after the options instances; or the first failing descriptor's exception is the outcome. When the container's instances and the callback's literals existed beforehand, the new instance is none of them |
| `Registration.Invoke` | DependencyInjection.Extensions.Parameterization/ServiceCollectionExtensions.cs:91-126 | invoking a registered factory creates a new instance of the entry's implementation type, not its service type, with the arguments its callback specifies, or propagates the callback's or the first failing descriptor's exception. A throwing callback allocates nothing. The new instance is none of the container's instances or the callback's literals when those existed beforehand |
| `Registration.ReinvokingCreatesDistinctInstances` | DependencyInjection.Extensions.Parameterization/ServiceCollectionExtensions.cs:118-126 | invoking a registered factory twice creates two different instances, even when the callback specifies only literals |
| `Registration.InvokeAppendingCallback` | DependencyInjection.Extensions.Parameterization/ServiceCollectionExtensions.cs:118-126 | an entry whose callback appends a descriptor list activates its implementation type with that list's reference arguments, or fails with its first failing descriptor's exception |
| `Registration.NewEntries` | DependencyInjection.Extensions.Parameterization/ServiceCollectionExtensions.cs:91-116 | each of the six overloads appends an entry that constructs the implementation type and carries the callback; the single-type overloads register it under the implementation type, the two-type overloads under the interface type |
| `Registration.ResolveActivatesWithBuiltArguments` | DependencyInjection.Extensions.Parameterization/ServiceCollectionExtensions.cs:118-126 | the callback runs once on a fresh, empty builder, and the implementation is activated with exactly the built arguments in order. If a descriptor fails, activation never happens and the first failing descriptor's exception is the outcome |
| `Registration.RegisteredFactoryActivatesImplementation` | DependencyInjection.Extensions.Parameterization/ServiceCollectionExtensions.cs:91-126 | for each of the six overloads and any service type, the registered factory activates the implementation type with the reference arguments of the callback's descriptors, or raises the first failing descriptor's exception |
| `Activation.NewActivatorFactory` | DependencyInjection.Extensions.Parameterization/ActivatorFactory.cs:9-15 | a new tracker over a container tracks nothing: disposing it calls no instance's dispose and cannot fail |
| `Activation.ActivatorFactory.RegisterInstance` | DependencyInjection.Extensions.Parameterization/ActivatorFactory.cs:33-39 | returns its argument unchanged. It pushes exactly one entry on top if and only if the argument is disposable; otherwise the tracker is unchanged |
| `Activation.ActivatorFactory.CreateInstance` | DependencyInjection.Extensions.Parameterization/ActivatorFactory.cs:17-25 | on success returns a new instance of exactly the requested type, with the next identity and the state activation produced; on failure returns activation's exception and allocates nothing. It tracks the instance on top if and only if it is disposable; otherwise the tracker is unchanged. The new instance is none of the container's instances, the arguments or the tracked instances when those existed beforehand |
| `Activation.ActivatorFactory.Dispose` | DependencyInjection.Extensions.Parameterization/ActivatorFactory.cs:27-31 | disposes tracked instances last-tracked-first, each popped once. It stops at the first instance whose dispose throws, leaving the untouched bottom of the stack tracked; otherwise it drains the stack completely |
| `Activation.RegisterAllPushesDisposables` | DependencyInjection.Extensions.Parameterization/ActivatorFactory.cs:33-39 | registering a sequence pushes exactly its disposable elements in order, one entry per push, without deduplication and without moving earlier entries |
| `Activation.DrainsCompletely` | DependencyInjection.Extensions.Parameterization/ActivatorFactory.cs:27-31 | when no tracked instance throws, disposal calls dispose on the reversed stack and leaves the tracker empty |
| `Activation.DisposeAfterRegistering` | DependencyInjection.Extensions.Parameterization/ActivatorFactory.cs:9-39 | after registering a sequence on a fresh tracker, disposal disposes each disposable exactly once, in reverse registration order; a second disposal disposes nothing |
| `Activation.CreatingTwiceCreatesTwoInstances` | DependencyInjection.Extensions.Parameterization/ActivatorFactory.cs:17-25 | two activations of one type with equal arguments create two different instances. Both are tracked, in creation order, when the type is disposable; neither is tracked otherwise |
| `Activation.SameInstanceTrackedTwice` | DependencyInjection.Extensions.Parameterization/ActivatorFactory.cs:33-39 | a disposable registered twice occupies two entries and is disposed twice |

## Left out

- `ActivatorUtilities.CreateInstance` (ServiceCollectionExtensions.cs:125, ActivatorFactory.cs:19) is reflection: constructor selection, container injection of the remaining parameters, and constructor-mismatch failures. It is the uninterpreted `Activator` parameter, which gives the new instance's state; the identity of the new instance is reserved by the model. Instances the constructor allocates internally are not counted.
- `ConfigurationBinder.Bind` and `new TImplementation()` are library behaviour. Together they are the uninterpreted `Binder`, which gives the fields bound from the section, or the exception either raises (an unconvertible value, a throwing constructor). `Options.Create` is the `Wrapped` constructor. Lenient binding of missing sections is therefore not stated.
- The registration callback is a pure function of the builder it is handed, which either returns the extended builder or raises. A callback with side effects of its own, or one that acts differently on each invocation, is not modelled. The properties are stated for one invocation's callback result.
- Singleton, scoped and transient caching belong to the Microsoft DI container. The model records only the requested `Lifetime`.
- The service provider is a fixed map from type to instance during one resolution. The container's own creation of transient instances on each lookup is not modelled.
- The generic constraints (`TTargetImplementation : class, TTargetInterface`, `TImplementation : class, new()`) are compile-time checks with no runtime behaviour. Interface implementation appears only as the set of interface names a runtime type carries, which the configuration cast consults; there is no other subtyping.
- The `ConcurrentStack` is modelled as a sequential stack. Its thread safety under concurrent pushes is concurrency and out of scope.
- Mutation in place is replaced by returned values. "Returns the same builder" becomes "returns the builder extended by one descriptor". "Same tracker" becomes the updated tracker value.
- Nested activation and factory descriptors are not methods of either `ParameterBuilder` (ParameterBuilder.cs, ServiceCollectionExtensions.cs:9-87). The demo console programs call them, but they are demo programs and are not modelled.
- `Runtime.GetConfiguration`: only configuration objects carry configuration entries. An object of another kind whose type claims to implement the configuration interface fails the cast in the model.
- `Parameters.OptionsArgumentsAreFresh`: states freshness relative to the allocation counter only. Distinctness from existing objects needs their identities below the counter, and `Parameters.OptionsArgumentsAreNew` states it under that condition.
- `Lazy<T>`'s caching of a thrown exception is not modelled separately: the exception ends the enumeration, so nothing can observe the cache afterwards.

=== FILE: activator_factory.dfy ===
/** The activation tracker: instances created or registered through it
    are remembered on a LIFO stack when they are disposable, and disposing
    the tracker disposes them, last tracked first. The stack is a sequence
    whose last element is the top. */
module Activation {
  import opened Runtime

  datatype Registered = Registered(factory: ActivatorFactory, instance: Obj)

  /** The outcome of `CreateInstance`: the tracker afterwards, the new
      instance or the activation's exception, and the next unused object
      identity. */
  datatype Created = Created(factory: ActivatorFactory, instance: Result<Obj>, next: nat)

  /** The outcome of `Dispose`: the tracker afterwards, the instances whose
      `Dispose` was called, in call order, and the exception that ended the
      drain, if one did. */
  datatype Disposal = Disposal(factory: ActivatorFactory, disposed: seq<Obj>, failure: Option<Error>)

  datatype ActivatorFactory = ActivatorFactory(provider: ServiceProvider, activated: seq<Obj>) {

    /** `RegisterInstance`: tracks the instance iff it is disposable, and
        hands it back unchanged. */
    function RegisterInstance(instance: Obj): (r: Registered)
      ensures r.instance == instance
      ensures r.factory.provider == provider
      ensures activated <= r.factory.activated
      ensures IsDisposable(instance) <==> |r.factory.activated| == |activated| + 1
      ensures IsDisposable(instance) ==> r.factory.activated[|activated|] == instance
      ensures !IsDisposable(instance) ==> r.factory == this
    {
      if IsDisposable(instance) then Registered(this.(activated := activated + [instance]), instance)
      else Registered(this, instance)
    }

    /** `CreateInstance`: activates `target` with the explicit arguments into
        a new instance with identity `next`, then tracks that instance like
        `RegisterInstance`. An activation that throws allocates and tracks
        nothing. When every object the container, the arguments and the
        tracker hold existed before `next`, the new instance is none of
        them. */
    function CreateInstance(activate: Activator, target: TypeName, parameters: seq<Obj>, next: nat): (r: Created)
      ensures r.instance.Success? <==> activate(provider, target, parameters).Success?
      ensures r.instance.Success? ==>
        && r.instance.value == Instance(target, next, activate(provider, target, parameters).value)
        && r.next == next + 1
      ensures r.instance.Failure? ==>
        r.instance.error == activate(provider, target, parameters).error && r.next == next
      ensures r.factory.provider == provider
      ensures activated <= r.factory.activated
      ensures |r.factory.activated| == |activated| + 1
        <==> r.instance.Success? && IsDisposable(r.instance.value)
      ensures r.instance.Success? && IsDisposable(r.instance.value)
        ==> r.factory.activated[|activated|] == r.instance.value
      ensures !(r.instance.Success? && IsDisposable(r.instance.value)) ==> r.factory == this
      ensures r.instance.Failure? ==> r.factory == this
      ensures ContainerBelow(provider, next) && r.instance.Success? ==>
        forall t :: t in provider.services ==> r.instance.value != provider.services[t]
      ensures (forall i :: 0 <= i < |parameters| ==> IdsBelow(parameters[i], next)) && r.instance.Success? ==>
        r.instance.value !in parameters
      ensures (forall i :: 0 <= i < |activated| ==> IdsBelow(activated[i], next)) && r.instance.Success? ==>
        r.instance.value !in activated
    {
      match Activate(activate, provider, target, parameters, next)
      case Failure(e) => Created(this, Failure(e), next)
      case Success(o) => Created(RegisterInstance(o).factory, Success(o), next + 1)
    }

    /** `Dispose`: pops and disposes until the stack is empty. `throws`
        says which instances' own `Dispose` raises; the first one that does
        ends the drain (it has been popped already), leaving the rest
        tracked. */
    function Dispose(throws: Obj -> bool): (r: Disposal)
      ensures r.factory.provider == provider
      ensures |r.disposed| <= |activated|
      ensures forall i :: 0 <= i < |r.disposed| ==> r.disposed[i] == activated[|activated| - 1 - i]
      ensures r.factory.activated == activated[..|activated| - |r.disposed|]
      ensures r.failure.None? <==> |r.disposed| == |activated| && forall o :: o in r.disposed ==> !throws(o)
      ensures r.failure.Some? ==>
        && |r.disposed| > 0
        && r.failure.value == DisposeFailed(r.disposed[|r.disposed| - 1])
        && throws(r.disposed[|r.disposed| - 1])
        && forall i :: 0 <= i < |r.disposed| - 1 ==> !throws(r.disposed[i])
      decreases |activated|
    {
      if |activated| == 0 then Disposal(this, [], None)
      else
        var top := activated[|activated| - 1];
        var popped := this.(activated := activated[..|activated| - 1]);
        if throws(top) then Disposal(popped, [top], Some(DisposeFailed(top)))
        else
          var rest := popped.Dispose(throws);
          Disposal(rest.factory, [top] + rest.disposed, rest.failure)
    }
  }

  /** A fresh tracker over a container: it tracks nothing, so disposing
      it calls no instance's `Dispose` and cannot fail. */
  function NewActivatorFactory(provider: ServiceProvider): (r: ActivatorFactory)
    ensures r.provider == provider
    ensures forall throws: Obj -> bool :: r.Dispose(throws).disposed == [] && r.Dispose(throws).failure.None?
  {
    ActivatorFactory(provider, [])
  }

  /** The disposable elements of `xs`, in order. */
  function Disposables(xs: seq<Obj>): seq<Obj> {
    if |xs| == 0 then []
    else Disposables(xs[..|xs| - 1]) + (if IsDisposable(xs[|xs| - 1]) then [xs[|xs| - 1]] else [])
  }

  /** `RegisterInstance` applied to each of `xs` in turn. */
  function RegisterAll(f: ActivatorFactory, xs: seq<Obj>): ActivatorFactory {
    if |xs| == 0 then f
    else RegisterAll(f, xs[..|xs| - 1]).RegisterInstance(xs[|xs| - 1]).factory
  }

  /** Registering a sequence of instances pushes exactly its disposable
      ones, in registration order, on top of what was tracked; nothing is
      deduplicated and nothing already tracked moves. */
  lemma {:induction false} RegisterAllPushesDisposables(f: ActivatorFactory, xs: seq<Obj>)
    ensures RegisterAll(f, xs).activated == f.activated + Disposables(xs)
    ensures RegisterAll(f, xs).provider == f.provider
    decreases |xs|
  {
    if |xs| > 0 {
      RegisterAllPushesDisposables(f, xs[..|xs| - 1]);
    }
  }

  /** When no tracked instance throws, `Dispose` drains the whole stack in
      reverse. */
  lemma DrainsCompletely(f: ActivatorFactory, throws: Obj -> bool)
    requires forall o :: o in f.activated ==> !throws(o)
    ensures f.Dispose(throws).failure.None?
    ensures f.Dispose(throws).disposed == Reverse(f.activated)
    ensures f.Dispose(throws).factory.activated == []
  {
    var d := f.Dispose(throws);
    ReverseIndex(f.activated);
    assert |d.disposed| == |f.activated|;
  }

  /** Disposing a tracker whose instances all dispose cleanly disposes each
      tracked disposable exactly once, last registered first, and leaves the
      tracker empty, so that disposing it again disposes nothing. */
  lemma DisposeAfterRegistering(provider: ServiceProvider, xs: seq<Obj>, throws: Obj -> bool)
    requires forall o :: o in xs ==> !throws(o)
    ensures var f := RegisterAll(NewActivatorFactory(provider), xs);
            var d := f.Dispose(throws);
      && d.failure.None?
      && d.disposed == Reverse(Disposables(xs))
      && multiset(d.disposed) == multiset(Disposables(xs))
      && d.factory.activated == []
      && d.factory.Dispose(throws).disposed == []
  {
    var f := RegisterAll(NewActivatorFactory(provider), xs);
    RegisterAllPushesDisposables(NewActivatorFactory(provider), xs);
    assert f.activated == Disposables(xs);
    DisposablesAreFrom(xs);
    DrainsCompletely(f, throws);
    ReversePreservesMultiset(Disposables(xs));
  }

  lemma {:induction false} DisposablesAreFrom(xs: seq<Obj>)
    ensures forall o :: o in Disposables(xs) ==> o in xs && IsDisposable(o)
    decreases |xs|
  {
    if |xs| > 0 {
      DisposablesAreFrom(xs[..|xs| - 1]);
    }
  }

  function Reverse(s: seq<Obj>): (r: seq<Obj>) {
    if |s| == 0 then [] else [s[|s| - 1]] + Reverse(s[..|s| - 1])
  }

  lemma {:induction false} ReverseIndex(s: seq<Obj>)
    ensures |Reverse(s)| == |s|
    ensures forall i :: 0 <= i < |s| ==> Reverse(s)[i] == s[|s| - 1 - i]
    decreases |s|
  {
    if |s| > 0 {
      ReverseIndex(s[..|s| - 1]);
    }
  }

  lemma {:induction false} ReversePreservesMultiset(s: seq<Obj>)
    ensures multiset(Reverse(s)) == multiset(s)
    decreases |s|
  {
    if |s| > 0 {
      ReversePreservesMultiset(s[..|s| - 1]);
      assert s == s[..|s| - 1] + [s[|s| - 1]];
    }
  }

  /** Two activations of the same type with the same arguments, threading
      the identity counter, create two different instances; when the type is
      disposable both are tracked, the second on top. */
  lemma CreatingTwiceCreatesTwoInstances(f: ActivatorFactory, activate: Activator, target: TypeName,
                                         parameters: seq<Obj>, next: nat)
    ensures var c1 := f.CreateInstance(activate, target, parameters, next);
            var c2 := c1.factory.CreateInstance(activate, target, parameters, c1.next);
      && (c1.instance.Success? <==> c2.instance.Success?)
      && (c1.instance.Success? ==>
            && c1.instance.value != c2.instance.value
            && (target.disposable ==> c2.factory.activated == f.activated + [c1.instance.value, c2.instance.value])
            && (!target.disposable ==> c2.factory.activated == f.activated))
  {
    var c1 := f.CreateInstance(activate, target, parameters, next);
    var c2 := c1.factory.CreateInstance(activate, target, parameters, c1.next);
    if c1.instance.Success? && target.disposable {
      assert c1.factory.activated == f.activated + [c1.instance.value];
    }
  }

  /** The same disposable object registered twice occupies two entries and
      is disposed twice. */
  lemma SameInstanceTrackedTwice(provider: ServiceProvider, o: Obj, throws: Obj -> bool)
    requires IsDisposable(o) && !throws(o)
    ensures var f := NewActivatorFactory(provider).RegisterInstance(o).factory.RegisterInstance(o).factory;
      && f.activated == [o, o]
      && f.Dispose(throws).disposed == [o, o]
  {
    var f := NewActivatorFactory(provider).RegisterInstance(o).factory.RegisterInstance(o).factory;
    assert f.activated == [o, o];
    DrainsCompletely(f, throws);
    assert Reverse([o, o]) == [o] + Reverse([o]);
    assert Reverse([o]) == [o] + Reverse([]);
  }
}

=== FILE: parameter_builder.dfy ===
/** The parameter-specification builder and its resolution against a
    service provider. The builder is an ordered list of parameter
    descriptors; resolving it is a lazy, forward-only walk over that list
    which yields one argument per descriptor and stops at the first
    exception. */
module Parameters {
  import opened Runtime

  /** The closed set of descriptor kinds (the private IParameter classes). */
  datatype Parameter =
    | ValueParameter(value: Obj)
    | TypeParameter(implementationType: TypeName)
    | OptionsParameter(shape: TypeName, key: string)

  datatype ParameterBuilder = ParameterBuilder(parameters: seq<Parameter>) {

    /** Appends a literal argument. */
    function Value(obj: Obj): (r: ParameterBuilder)
      ensures |r.parameters| == |parameters| + 1
      ensures parameters <= r.parameters
      ensures r.parameters[|parameters|] == ValueParameter(obj)
    {
      ParameterBuilder(parameters + [ValueParameter(obj)])
    }

    /** Appends an argument looked up from the container by type. */
    function Type(implementationType: TypeName): (r: ParameterBuilder)
      ensures |r.parameters| == |parameters| + 1
      ensures parameters <= r.parameters
      ensures r.parameters[|parameters|] == TypeParameter(implementationType)
    {
      ParameterBuilder(parameters + [TypeParameter(implementationType)])
    }

    /** Appends an options argument bound from configuration section `key`
        into a fresh default instance of `shape`. */
    function Options(shape: TypeName, key: string): (r: ParameterBuilder)
      ensures |r.parameters| == |parameters| + 1
      ensures parameters <= r.parameters
      ensures r.parameters[|parameters|] == OptionsParameter(shape, key)
    {
      ParameterBuilder(parameters + [OptionsParameter(shape, key)])
    }

    /** `Build(serviceProvider)`, materialised: configuration is requested
        as IConfiguration. `next` is the first unused object identity. The
        arguments are the reference values of the descriptors, in order, up
        to the first descriptor that raises. */
    function Build(provider: ServiceProvider, bind: Binder, next: nat): (r: Run)
      ensures var env := Env(provider, IConfiguration, bind);
        && (r.failure.None? <==> forall i :: 0 <= i < |parameters| ==> Resolvable(env, parameters[i]))
        && (r.failure.None? ==> r.yielded == ExpectedArguments(env, parameters, next))
        && |r.yielded| <= |parameters|
        && (forall i :: 0 <= i < |r.yielded| ==>
              Resolvable(env, parameters[i]) && r.yielded[i] == ExpectedAt(env, parameters, i, next))
        && (r.failure.Some? ==>
              |r.yielded| < |parameters| && !Resolvable(env, parameters[|r.yielded|])
              && r.failure.value == FailureOf(env, parameters[|r.yielded|]))
    {
      var env := Env(provider, IConfiguration, bind);
      BuildSucceedsIffAllResolvable(env, parameters, next);
      ResolvesInOrder(env, parameters, next);
      Evaluate(env, parameters, Start(next))
    }
  }

  const EmptyBuilder := ParameterBuilder([])

  /** What resolution may consult: the container, the service type under
      which configuration is requested, and the binding primitive. */
  datatype Env = Env(provider: ServiceProvider, configurationService: TypeName, bind: Binder)

  /** A container query made during resolution. */
  datatype Event = ServiceLookup(service: TypeName) | ConfigurationLookup

  /** The state of one enumeration: the arguments yielded so far, the
      container queries made so far, the memoised configuration (the Lazy
      value), the next fresh object identity, and the exception that ended
      the enumeration, if any. */
  datatype Run = Run(
    yielded: seq<Obj>,
    trace: seq<Event>,
    configuration: Option<Config>,
    next: nat,
    failure: Option<Error>)

  function Start(next: nat): Run {
    Run([], [], None, next, None)
  }

  /** `new TImplementation()`, `Bind` into it and `Options.Create`: the
      fresh instance `id`, holding what binding wrote into it, wrapped. */
  function CreateOptions(env: Env, config: Config, shape: TypeName, key: string, id: nat): Result<Obj> {
    match env.bind(config, key, shape)
    case Success(settings) => Success(Wrapped(Instance(shape, id, settings)))
    case Failure(e) => Failure(e)
  }

  function YieldOptions(env: Env, st: Run, config: Config, shape: TypeName, key: string): Run {
    match CreateOptions(env, config, shape, key, st.next)
    case Success(o) => st.(yielded := st.yielded + [o], next := st.next + 1)
    case Failure(e) => st.(failure := Some(e))
  }

  /** The memoised configuration, if any, is what the configuration
      service yields. */
  ghost predicate CachedConfiguration(env: Env, st: Run) {
    st.configuration.Some? ==>
      GetConfiguration(env.provider, env.configurationService) == Success(st.configuration.value)
  }

  /** One iteration of the `foreach` over the descriptors: a descriptor
      that resolves adds exactly its argument, one that does not ends the
      enumeration with its exception, and at most one container query is
      made. */
  function Step(env: Env, st: Run, p: Parameter): (r: Run)
    ensures st.failure.Some? ==> r == st
    ensures st.yielded <= r.yielded && st.trace <= r.trace && |r.trace| <= |st.trace| + 1
    ensures CachedConfiguration(env, st) ==> CachedConfiguration(env, r)
    ensures st.failure.None? && CachedConfiguration(env, st) && Resolvable(env, p) ==>
      r.failure.None? && |r.yielded| == |st.yielded| + 1
    ensures st.failure.None? && CachedConfiguration(env, st) && !Resolvable(env, p) ==>
      r.failure == Some(FailureOf(env, p)) && r.yielded == st.yielded && r.next == st.next
  {
    if st.failure.Some? then st
    else
      match p
      case ValueParameter(v) => st.(yielded := st.yielded + [v])
      case TypeParameter(t) =>
        var looked := st.(trace := st.trace + [ServiceLookup(t)]);
        (match GetRequiredService(env.provider, t)
         case Success(o) => looked.(yielded := looked.yielded + [o])
         case Failure(e) => looked.(failure := Some(e)))
      case OptionsParameter(shape, key) =>
        match st.configuration
        case Some(config) => YieldOptions(env, st, config, shape, key)
        case None =>
          var looked := st.(trace := st.trace + [ConfigurationLookup]);
          match GetConfiguration(env.provider, env.configurationService)
          case Success(config) => YieldOptions(env, looked.(configuration := Some(config)), config, shape, key)
          case Failure(e) => looked.(failure := Some(e))
  }

  /** The enumeration, consumed to its end (or to its first exception). */
  function Evaluate(env: Env, ps: seq<Parameter>, st: Run): (r: Run)
    ensures st.failure.Some? ==> r == st
    ensures st.yielded <= r.yielded
    ensures st.trace <= r.trace
    ensures st.next <= r.next
    decreases |ps|
  {
    if |ps| == 0 then st else Evaluate(env, ps[1..], Step(env, st, ps[0]))
  }

  // ---------------------------------------------------------------------
  // Reference definitions: what each descriptor resolves to, independently
  // of the fold.

  function OptionsCount(ps: seq<Parameter>): nat {
    if |ps| == 0 then 0
    else OptionsCount(ps[..|ps| - 1]) + (if ps[|ps| - 1].OptionsParameter? then 1 else 0)
  }

  function ConfigurationLookups(trace: seq<Event>): nat {
    if |trace| == 0 then 0
    else ConfigurationLookups(trace[..|trace| - 1]) + (if trace[|trace| - 1] == ConfigurationLookup then 1 else 0)
  }

  /** Whether descriptor `p` can be resolved without an exception. */
  predicate Resolvable(env: Env, p: Parameter) {
    match p
    case ValueParameter(_) => true
    case TypeParameter(t) => t in env.provider.services
    case OptionsParameter(shape, key) =>
      var config := GetConfiguration(env.provider, env.configurationService);
      config.Success? && env.bind(config.value, key, shape).Success?
  }

  /** The exception an unresolvable descriptor raises: the container's for
      a by-type descriptor; for an options descriptor the configuration
      lookup's, or else the binder's. */
  function FailureOf(env: Env, p: Parameter): Error
    requires !Resolvable(env, p)
  {
    var config := GetConfiguration(env.provider, env.configurationService);
    if p.TypeParameter? then ServiceNotRegistered(p.implementationType)
    else if config.Failure? then config.error
    else env.bind(config.value, p.key, p.shape).error
  }

  /** The identity of the default instance created for descriptor `i`:
      one fresh identity per options descriptor before it. */
  function DefaultInstanceId(ps: seq<Parameter>, i: nat, next: nat): nat
    requires i <= |ps|
  {
    next + OptionsCount(ps[..i])
  }

  /** The argument descriptor `i` resolves to. */
  function ExpectedAt(env: Env, ps: seq<Parameter>, i: nat, next: nat): Obj
    requires i < |ps| && Resolvable(env, ps[i])
  {
    match ps[i]
    case ValueParameter(v) => v
    case TypeParameter(t) => env.provider.services[t]
    case OptionsParameter(shape, key) =>
      var config := GetConfiguration(env.provider, env.configurationService).value;
      Wrapped(Instance(shape, DefaultInstanceId(ps, i, next), env.bind(config, key, shape).value))
  }

  /** The full argument vector, when every descriptor resolves. */
  function ExpectedArguments(env: Env, ps: seq<Parameter>, next: nat): (args: seq<Obj>)
    requires forall i :: 0 <= i < |ps| ==> Resolvable(env, ps[i])
    ensures |args| == |ps|
    ensures forall i :: 0 <= i < |ps| ==> args[i] == ExpectedAt(env, ps, i, next)
  {
    seq(|ps|, i requires 0 <= i < |ps| => ExpectedAt(env, ps, i, next))
  }

  // ---------------------------------------------------------------------
  // The fold is a left-to-right walk.

  lemma {:induction false} EvaluateAppend(env: Env, ps: seq<Parameter>, p: Parameter, st: Run)
    ensures Evaluate(env, ps + [p], st) == Step(env, Evaluate(env, ps, st), p)
    decreases |ps|
  {
    if |ps| == 0 {
      assert ps + [p] == [p];
      assert [p][1..] == [];
    } else {
      assert (ps + [p])[0] == ps[0];
      assert (ps + [p])[1..] == ps[1..] + [p];
      EvaluateAppend(env, ps[1..], p, Step(env, st, ps[0]));
    }
  }

  lemma {:induction false} EvaluateConcat(env: Env, ps: seq<Parameter>, qs: seq<Parameter>, st: Run)
    ensures Evaluate(env, ps + qs, st) == Evaluate(env, qs, Evaluate(env, ps, st))
    decreases |ps|
  {
    if |ps| == 0 {
      assert ps + qs == qs;
    } else {
      assert (ps + qs)[0] == ps[0];
      assert (ps + qs)[1..] == ps[1..] + qs;
      EvaluateConcat(env, ps[1..], qs, Step(env, st, ps[0]));
    }
  }

  /** Laziness: once a descriptor has raised, the descriptors after it are
      never evaluated, whatever they are. */
  lemma FailureLeavesRestUnevaluated(env: Env, ps: seq<Parameter>, rest: seq<Parameter>, next: nat)
    requires Evaluate(env, ps, Start(next)).failure.Some?
    ensures Evaluate(env, ps + rest, Start(next)) == Evaluate(env, ps, Start(next))
  {
    EvaluateConcat(env, ps, rest, Start(next));
  }

  // ---------------------------------------------------------------------
  // Resolution agrees with the reference definition.

  lemma PrefixOfAppend(ps: seq<Parameter>, d: Parameter, k: nat)
    requires k <= |ps|
    ensures (ps + [d])[..k] == ps[..k]
  {
  }

  /** What an enumeration of `ps` from `Start(next)` has produced: the
      reference value of every descriptor it got past, in order, and at a
      failure the exception of the first unresolvable descriptor. */
  ghost predicate ResolvedPrefix(env: Env, ps: seq<Parameter>, next: nat, r: Run) {
    && |r.yielded| <= |ps|
    && (forall i :: 0 <= i < |r.yielded| ==>
          Resolvable(env, ps[i]) && r.yielded[i] == ExpectedAt(env, ps, i, next))
    && (r.failure.None? ==> |r.yielded| == |ps|)
    && (r.failure.Some? ==>
          |r.yielded| < |ps| && !Resolvable(env, ps[|r.yielded|])
          && r.failure.value == FailureOf(env, ps[|r.yielded|]))
    && r.next == next + OptionsCount(ps[..|r.yielded|])
    && CachedConfiguration(env, r)
  }

  /** Extending the specification by one descriptor keeps the reference
      values of the earlier descriptors. */
  lemma ExpectedAtAppend(env: Env, p: seq<Parameter>, d: Parameter, i: nat, next: nat)
    requires i < |p| && Resolvable(env, p[i])
    ensures (p + [d])[i] == p[i]
    ensures ExpectedAt(env, p + [d], i, next) == ExpectedAt(env, p, i, next)
  {
    PrefixOfAppend(p, d, i);
  }

  lemma ResolvedPrefixAfterFailure(env: Env, p: seq<Parameter>, d: Parameter, next: nat, rp: Run)
    requires ResolvedPrefix(env, p, next, rp) && rp.failure.Some?
    ensures ResolvedPrefix(env, p + [d], next, Step(env, rp, d))
  {
    forall i | 0 <= i < |rp.yielded|
      ensures Resolvable(env, (p + [d])[i])
      ensures rp.yielded[i] == ExpectedAt(env, p + [d], i, next)
    {
      ExpectedAtAppend(env, p, d, i, next);
    }
    PrefixOfAppend(p, d, |rp.yielded|);
  }

  lemma OptionsCountAppend(p: seq<Parameter>, d: Parameter)
    ensures OptionsCount(p + [d]) == OptionsCount(p) + (if d.OptionsParameter? then 1 else 0)
    ensures (p + [d])[..|p|] == p
    ensures (p + [d])[..|p| + 1] == p + [d]
  {
    assert (p + [d])[..|p|] == p;
  }

  /** One step past a successful prefix resolves the new descriptor to its
      reference value, or raises its exception. */
  lemma StepResolvesLast(env: Env, p: seq<Parameter>, d: Parameter, next: nat, rp: Run)
    requires rp.failure.None? && rp.next == next + OptionsCount(p)
    requires CachedConfiguration(env, rp)
    ensures var r := Step(env, rp, d);
      && (Resolvable(env, d) ==>
            r.failure.None?
            && r.yielded == rp.yielded + [ExpectedAt(env, p + [d], |p|, next)]
            && r.next == next + OptionsCount(p + [d]))
      && (!Resolvable(env, d) ==>
            r.failure == Some(FailureOf(env, d)) && r.yielded == rp.yielded && r.next == rp.next)
      && CachedConfiguration(env, r)
  {
    OptionsCountAppend(p, d);
    assert (p + [d])[|p|] == d;
    match d
    case ValueParameter(_) =>
    case TypeParameter(t) =>
    case OptionsParameter(shape, key) =>
      assert DefaultInstanceId(p + [d], |p|, next) == rp.next;
  }

  lemma ResolvedPrefixAfterSuccess(env: Env, p: seq<Parameter>, d: Parameter, next: nat, rp: Run)
    requires ResolvedPrefix(env, p, next, rp) && rp.failure.None?
    ensures ResolvedPrefix(env, p + [d], next, Step(env, rp, d))
  {
    var ps := p + [d];
    var r := Step(env, rp, d);
    assert |rp.yielded| == |p| && p[..|p|] == p;
    StepResolvesLast(env, p, d, next, rp);
    OptionsCountAppend(p, d);
    assert |rp.yielded| == |p|;
    forall i | 0 <= i < |rp.yielded|
      ensures Resolvable(env, ps[i])
      ensures r.yielded[i] == ExpectedAt(env, ps, i, next)
    {
      ExpectedAtAppend(env, p, d, i, next);
    }
  }

  /** `Build` yields exactly one argument per descriptor, in declaration
      order, each the reference value of its descriptor; it fails exactly
      at the first unresolvable descriptor, with that descriptor's
      exception, having yielded the arguments before it. */
  lemma {:induction false} ResolvesInOrder(env: Env, ps: seq<Parameter>, next: nat)
    ensures ResolvedPrefix(env, ps, next, Evaluate(env, ps, Start(next)))
    decreases |ps|
  {
    if |ps| == 0 {
      assert ps[..0] == [];
    } else {
      var p := ps[..|ps| - 1];
      var d := ps[|ps| - 1];
      assert ps == p + [d];
      EvaluateAppend(env, p, d, Start(next));
      ResolvesInOrder(env, p, next);
      if Evaluate(env, p, Start(next)).failure.Some? {
        ResolvedPrefixAfterFailure(env, p, d, next, Evaluate(env, p, Start(next)));
      } else {
        ResolvedPrefixAfterSuccess(env, p, d, next, Evaluate(env, p, Start(next)));
      }
    }
  }

  /** Success is exactly "every descriptor resolves", and then the output is
      the reference argument vector. */
  lemma BuildSucceedsIffAllResolvable(env: Env, ps: seq<Parameter>, next: nat)
    ensures var r := Evaluate(env, ps, Start(next));
      && (r.failure.None? <==> forall i :: 0 <= i < |ps| ==> Resolvable(env, ps[i]))
      && (r.failure.None? ==> r.yielded == ExpectedArguments(env, ps, next))
  {
    ResolvesInOrder(env, ps, next);
  }

  /** A literal-only specification resolves to exactly its literals, in
      order, without a single container query. */
  lemma {:induction false} ValueOnlyYieldsLiterals(env: Env, ps: seq<Parameter>, next: nat)
    requires forall i :: 0 <= i < |ps| ==> ps[i].ValueParameter?
    ensures var r := Evaluate(env, ps, Start(next));
      && r.failure.None?
      && r.trace == []
      && r.next == next
      && |r.yielded| == |ps|
      && (forall i :: 0 <= i < |ps| ==> r.yielded[i] == ps[i].value)
    decreases |ps|
  {
    if |ps| > 0 {
      var p := ps[..|ps| - 1];
      var d := ps[|ps| - 1];
      assert ps == p + [d];
      EvaluateAppend(env, p, d, Start(next));
      ValueOnlyYieldsLiterals(env, p, next);
    }
  }

  lemma ConfigurationLookupsAppend(t: seq<Event>, e: Event)
    ensures ConfigurationLookups(t + [e]) == ConfigurationLookups(t) + (if e == ConfigurationLookup then 1 else 0)
  {
    assert (t + [e])[..|t|] == t;
  }

  /** The lazy-configuration facts about an enumeration of `ps`. */
  ghost predicate LazyConfiguration(ps: seq<Parameter>, r: Run) {
    && ConfigurationLookups(r.trace) <= 1
    && (r.failure.None? ==> (ConfigurationLookups(r.trace) == 1 <==> r.configuration.Some?))
    && (ConfigurationLookups(r.trace) == 1 ==>
          exists i :: 0 <= i < |ps| && i <= |r.yielded| && ps[i].OptionsParameter?)
    && ((exists i :: 0 <= i < |ps| && i < |r.yielded| && ps[i].OptionsParameter?) ==>
          ConfigurationLookups(r.trace) == 1 && r.configuration.Some?)
  }

  /** A step after a failure changes nothing, so the facts carry over. */
  lemma LazyConfigurationAfterFailure(env: Env, p: seq<Parameter>, d: Parameter, rp: Run)
    requires LazyConfiguration(p, rp) && rp.failure.Some? && |rp.yielded| < |p|
    ensures LazyConfiguration(p + [d], Step(env, rp, d))
  {
    var ps := p + [d];
    if ConfigurationLookups(rp.trace) == 1 {
      var i :| 0 <= i < |p| && i <= |rp.yielded| && p[i].OptionsParameter?;
      assert ps[i].OptionsParameter?;
    }
    if exists i :: 0 <= i < |ps| && i < |rp.yielded| && ps[i].OptionsParameter? {
      var i :| 0 <= i < |ps| && i < |rp.yielded| && ps[i].OptionsParameter?;
      assert p[i].OptionsParameter?;
    }
  }

  /** A step after a complete prefix makes a configuration lookup only for
      an options descriptor, and only when none was memoised. */
  lemma LazyConfigurationAfterSuccess(env: Env, p: seq<Parameter>, d: Parameter, rp: Run)
    requires LazyConfiguration(p, rp) && rp.failure.None? && |rp.yielded| == |p|
    ensures LazyConfiguration(p + [d], Step(env, rp, d))
  {
    var ps := p + [d];
    var r := Step(env, rp, d);
    if d.TypeParameter? {
      ConfigurationLookupsAppend(rp.trace, ServiceLookup(d.implementationType));
    } else if d.OptionsParameter? && rp.configuration.None? {
      ConfigurationLookupsAppend(rp.trace, ConfigurationLookup);
      assert ps[|p|].OptionsParameter?;
    }
    if exists i :: 0 <= i < |ps| && i < |r.yielded| && ps[i].OptionsParameter? {
      var i :| 0 <= i < |ps| && i < |r.yielded| && ps[i].OptionsParameter?;
      if i < |p| {
        assert p[i].OptionsParameter?;
      }
    }
    if ConfigurationLookups(r.trace) == 1 && ConfigurationLookups(rp.trace) == 1 {
      var i :| 0 <= i < |p| && i <= |rp.yielded| && p[i].OptionsParameter?;
      assert ps[i].OptionsParameter?;
    }
  }

  /** Configuration is fetched lazily: at most once per enumeration, only
      once an options descriptor has been reached, and it stays memoised
      for every options descriptor after the first. */
  lemma {:induction false} ConfigurationFetchedAtMostOnce(env: Env, ps: seq<Parameter>, next: nat)
    ensures LazyConfiguration(ps, Evaluate(env, ps, Start(next)))
    decreases |ps|
  {
    if |ps| > 0 {
      var p := ps[..|ps| - 1];
      var d := ps[|ps| - 1];
      assert ps == p + [d];
      EvaluateAppend(env, p, d, Start(next));
      ConfigurationFetchedAtMostOnce(env, p, next);
      ResolvesInOrder(env, p, next);
      var rp := Evaluate(env, p, Start(next));
      if rp.failure.Some? {
        LazyConfigurationAfterFailure(env, p, d, rp);
      } else {
        LazyConfigurationAfterSuccess(env, p, d, rp);
      }
    }
  }

  /** A specification without options descriptors never consults the
      configuration: neither the configuration service key, nor the binder,
      nor whether configuration is registered at all changes its result. */
  lemma {:induction false} NoOptionsNeverNeedsConfiguration(env: Env, other: Env, ps: seq<Parameter>, next: nat)
    requires forall i :: 0 <= i < |ps| ==> !ps[i].OptionsParameter?
    requires forall i :: 0 <= i < |ps| && ps[i].TypeParameter? ==>
      GetRequiredService(env.provider, ps[i].implementationType)
        == GetRequiredService(other.provider, ps[i].implementationType)
    ensures Evaluate(env, ps, Start(next)) == Evaluate(other, ps, Start(next))
    ensures ConfigurationLookups(Evaluate(env, ps, Start(next)).trace) == 0
    decreases |ps|
  {
    if |ps| > 0 {
      var p := ps[..|ps| - 1];
      var d := ps[|ps| - 1];
      assert ps == p + [d];
      EvaluateAppend(env, p, d, Start(next));
      EvaluateAppend(other, p, d, Start(next));
      NoOptionsNeverNeedsConfiguration(env, other, p, next);
      var rp := Evaluate(env, p, Start(next));
      var t := rp.trace;
      if rp.failure.None? && d.TypeParameter? {
        assert (t + [ServiceLookup(d.implementationType)])[..|t|] == t;
      }
    }
  }

  /** Resolution depends on the environment only through the container's
      instances, the configuration the configuration service yields, and
      the binder. */
  lemma {:induction false} SameConfigurationSameResolution(env: Env, other: Env, ps: seq<Parameter>, st: Run)
    requires env.provider == other.provider && env.bind == other.bind
    requires GetConfiguration(env.provider, env.configurationService)
      == GetConfiguration(other.provider, other.configurationService)
    ensures Evaluate(env, ps, st) == Evaluate(other, ps, st)
    decreases |ps|
  {
    if |ps| > 0 {
      assert Step(env, st, ps[0]) == Step(other, st, ps[0]);
      SameConfigurationSameResolution(env, other, ps[1..], Step(env, st, ps[0]));
    }
  }

  // ---------------------------------------------------------------------
  // Options instances are fresh.

  lemma {:induction false} OptionsCountMonotone(ps: seq<Parameter>, i: nat, j: nat)
    requires i <= j <= |ps|
    ensures OptionsCount(ps[..i]) <= OptionsCount(ps[..j])
    ensures i < j && ps[i].OptionsParameter? ==> OptionsCount(ps[..i]) < OptionsCount(ps[..j])
    decreases j - i
  {
    if i < j {
      OptionsCountMonotone(ps, i, j - 1);
      assert ps[..j][..j - 1] == ps[..j - 1];
      if i == j - 1 && ps[i].OptionsParameter? {
        assert ps[..j][j - 1] == ps[i];
      }
    }
  }

  /** Within one enumeration, every options argument wraps a new instance
      whose identity was handed out by this enumeration, in increasing
      order of descriptors. */
  lemma OptionsArgumentsAreFresh(env: Env, ps: seq<Parameter>, next: nat)
    ensures var r := Evaluate(env, ps, Start(next));
      && (forall i :: 0 <= i < |r.yielded| && i < |ps| && ps[i].OptionsParameter? ==>
            && r.yielded[i].Wrapped? && r.yielded[i].inner.Instance?
            && r.yielded[i].inner.id == DefaultInstanceId(ps, i, next)
            && next <= r.yielded[i].inner.id < r.next)
      && (forall i, j :: 0 <= i < j < |r.yielded| && j < |ps| && ps[i].OptionsParameter? && ps[j].OptionsParameter? ==>
            r.yielded[i].inner.id < r.yielded[j].inner.id)
  {
    var r := Evaluate(env, ps, Start(next));
    ResolvesInOrder(env, ps, next);
    forall i, j | 0 <= i < j < |r.yielded| && j < |ps| && ps[i].OptionsParameter?
      ensures DefaultInstanceId(ps, i, next) < DefaultInstanceId(ps, j, next)
    {
      OptionsCountMonotone(ps, i, j);
    }
    forall i | 0 <= i < |r.yielded| && i < |ps| && ps[i].OptionsParameter?
      ensures DefaultInstanceId(ps, i, next) < r.next
    {
      OptionsCountMonotone(ps, i, |r.yielded|);
    }
  }

  /** Every literal among the descriptors `ps` existed before identity `n`
      was handed out. */
  ghost predicate LiteralsBelow(ps: seq<Parameter>, n: nat) {
    forall i :: 0 <= i < |ps| && ps[i].ValueParameter? ==> IdsBelow(ps[i].value, n)
  }

  /** When the container's instances and the literals all existed before
      the enumeration started, every options argument is a new object: it
      is none of the container's instances and none of the other arguments,
      whatever the others are. */
  lemma OptionsArgumentsAreNew(env: Env, ps: seq<Parameter>, next: nat)
    requires ContainerBelow(env.provider, next) && LiteralsBelow(ps, next)
    ensures var r := Evaluate(env, ps, Start(next));
      && (forall i, t :: 0 <= i < |r.yielded| && i < |ps| && ps[i].OptionsParameter?
                         && t in env.provider.services ==>
            r.yielded[i] != env.provider.services[t])
      && (forall i, j :: 0 <= i < |r.yielded| && 0 <= j < |r.yielded| && i != j && i < |ps|
                         && ps[i].OptionsParameter? ==>
            r.yielded[i] != r.yielded[j])
  {
    var r := Evaluate(env, ps, Start(next));
    ResolvesInOrder(env, ps, next);
    OptionsArgumentsAreFresh(env, ps, next);
    forall i, t | 0 <= i < |r.yielded| && i < |ps| && ps[i].OptionsParameter? && t in env.provider.services
      ensures r.yielded[i] != env.provider.services[t]
    {
      NewIsNotExisting(r.yielded[i], env.provider.services[t], next);
    }
    forall i, j | 0 <= i < |r.yielded| && 0 <= j < |r.yielded| && i != j && i < |ps| && ps[i].OptionsParameter?
      ensures r.yielded[i] != r.yielded[j]
    {
      if ps[j].OptionsParameter? {
        if i < j {
          assert r.yielded[i].inner.id < r.yielded[j].inner.id;
        } else {
          assert r.yielded[j].inner.id < r.yielded[i].inner.id;
        }
      } else {
        assert r.yielded[j] == ExpectedAt(env, ps, j, next);
        NewIsNotExisting(r.yielded[i], r.yielded[j], next);
      }
    }
  }

  /** Where the identity counter starts changes nothing but the identities:
      the outcome, the literals, the looked-up instances and the bound
      settings are the same. */
  lemma ResolutionIgnoresStartIdentity(env: Env, ps: seq<Parameter>, n1: nat, n2: nat)
    ensures var r1 := Evaluate(env, ps, Start(n1));
            var r2 := Evaluate(env, ps, Start(n2));
      && r2.failure == r1.failure
      && |r2.yielded| == |r1.yielded| <= |ps|
      && (forall i :: 0 <= i < |r1.yielded| && i < |ps| && !ps[i].OptionsParameter? ==>
            r2.yielded[i] == r1.yielded[i])
      && (forall i :: 0 <= i < |r1.yielded| && i < |ps| && ps[i].OptionsParameter? ==>
            && r1.yielded[i].Wrapped? && r1.yielded[i].inner.Instance?
            && r2.yielded[i].Wrapped? && r2.yielded[i].inner.Instance?
            && r2.yielded[i].inner.settings == r1.yielded[i].inner.settings)
  {
    ResolvesInOrder(env, ps, n1);
    ResolvesInOrder(env, ps, n2);
  }

  /** A second enumeration of the same builder (seeing the same container)
      ends the same way and yields the same literals, looked-up instances
      and bound settings, but every options argument wraps an instance whose
      identity is disjoint from the first enumeration's, so no options
      argument is shared between the two. */
  lemma RebuildingCreatesFreshOptions(env: Env, ps: seq<Parameter>, next: nat)
    ensures var r1 := Evaluate(env, ps, Start(next));
            var r2 := Evaluate(env, ps, Start(r1.next));
      && r2.failure == r1.failure
      && |r2.yielded| == |r1.yielded| <= |ps|
      && (forall i :: 0 <= i < |r1.yielded| && i < |ps| && !ps[i].OptionsParameter? ==>
            r2.yielded[i] == r1.yielded[i])
      && (forall i :: 0 <= i < |r1.yielded| && i < |ps| && ps[i].OptionsParameter? ==>
            && r1.yielded[i].Wrapped? && r1.yielded[i].inner.Instance?
            && r2.yielded[i].Wrapped? && r2.yielded[i].inner.Instance?
            && r2.yielded[i].inner.settings == r1.yielded[i].inner.settings
            && next <= r1.yielded[i].inner.id < r1.next <= r2.yielded[i].inner.id < r2.next)
      && (forall i, j :: 0 <= i < |r1.yielded| && 0 <= j < |r2.yielded| && i < |ps| && j < |ps|
                         && ps[i].OptionsParameter? && ps[j].OptionsParameter? ==>
            r1.yielded[i] != r2.yielded[j])
  {
    var r1 := Evaluate(env, ps, Start(next));
    var r2 := Evaluate(env, ps, Start(r1.next));
    OptionsArgumentsAreFresh(env, ps, next);
    OptionsArgumentsAreFresh(env, ps, r1.next);
    ResolutionIgnoresStartIdentity(env, ps, next, r1.next);
    forall i, j | 0 <= i < |r1.yielded| && 0 <= j < |r2.yielded| && i < |ps| && j < |ps|
                  && ps[i].OptionsParameter? && ps[j].OptionsParameter?
      ensures r1.yielded[i] != r2.yielded[j]
    {
      assert r1.yielded[i].inner.id < r2.yielded[j].inner.id;
    }
  }

  // ---------------------------------------------------------------------
  // Each fluent call extends the enumeration by exactly its descriptor.

  /** After `Value(obj)`, the enumeration yields `obj` after everything the
      builder yielded before, without touching the container. */
  lemma BuildAfterValue(b: ParameterBuilder, obj: Obj, provider: ServiceProvider, bind: Binder, next: nat)
    ensures var r := b.Build(provider, bind, next);
            var r' := b.Value(obj).Build(provider, bind, next);
      && (r.failure.Some? ==> r' == r)
      && (r.failure.None? ==> r' == r.(yielded := r.yielded + [obj]))
  {
    EvaluateAppend(Env(provider, IConfiguration, bind), b.parameters, ValueParameter(obj), Start(next));
  }

  /** After `Type(t)`, the enumeration performs one more required lookup
      of `t`: it yields the registered instance, or fails with the
      container's not-found exception. */
  lemma BuildAfterType(b: ParameterBuilder, t: TypeName, provider: ServiceProvider, bind: Binder, next: nat)
    ensures var r := b.Build(provider, bind, next);
            var r' := b.Type(t).Build(provider, bind, next);
      && (r.failure.Some? ==> r' == r)
      && (r.failure.None? ==>
            && r'.trace == r.trace + [ServiceLookup(t)]
            && (r'.failure.None? <==> t in provider.services)
            && (t in provider.services ==> r'.yielded == r.yielded + [provider.services[t]])
            && (t !in provider.services ==>
                  r'.yielded == r.yielded && r'.failure == Some(ServiceNotRegistered(t))))
  {
    EvaluateAppend(Env(provider, IConfiguration, bind), b.parameters, TypeParameter(t), Start(next));
  }

  /** After `Options(shape, key)`, the enumeration yields one wrapped
      options value: a default instance of `shape` whose identity was never
      used before, holding what binding section `key` wrote into it.
      Configuration is requested only if no earlier descriptor requested
      it; a failed lookup or a failed binding ends the enumeration with its
      exception. */
  lemma BuildAfterOptions(b: ParameterBuilder, shape: TypeName, key: string, provider: ServiceProvider, bind: Binder, next: nat)
    ensures var config := GetConfiguration(provider, IConfiguration);
            var r := b.Build(provider, bind, next);
            var r' := b.Options(shape, key).Build(provider, bind, next);
      && (r.failure.Some? ==> r' == r)
      && (r.failure.None? ==>
            && (r'.failure.None? <==> config.Success? && bind(config.value, key, shape).Success?)
            && (config.Success? && bind(config.value, key, shape).Success? ==>
                  && r'.yielded == r.yielded + [Wrapped(Instance(shape, r.next, bind(config.value, key, shape).value))]
                  && r'.next == r.next + 1
                  && next <= r.next)
            && (config.Failure? ==> r'.failure == Some(config.error) && r'.yielded == r.yielded)
            && (config.Success? && bind(config.value, key, shape).Failure? ==>
                  r'.failure == Some(bind(config.value, key, shape).error) && r'.yielded == r.yielded)
            && (r.configuration.Some? ==> r'.trace == r.trace)
            && (r.configuration.None? ==> r'.trace == r.trace + [ConfigurationLookup]))
  {
    var env := Env(provider, IConfiguration, bind);
    EvaluateAppend(env, b.parameters, OptionsParameter(shape, key), Start(next));
    ResolvesInOrder(env, b.parameters, next);
  }
}

=== FILE: runtime.dfy ===
/** The collaborators of the parameterization engine: runtime types and
    objects, the dependency container seen as a service provider, the
    configuration source, and the foreign operations (configuration
    binding, constructor activation) the engine calls but does not own. */
module Runtime {

  datatype Option<+T> = None | Some(value: T)

  /** A runtime type with the names of the interfaces it implements.
      Whether it implements IDisposable is a property of the type itself,
      which is what an `is IDisposable` test inspects. */
  datatype TypeName = TypeName(name: string, disposable: bool, interfaces: set<string>)

  const StringType := TypeName("System.String", false, {})
  const OptionsWrapperType := TypeName("Microsoft.Extensions.Options.OptionsWrapper", false, {})
  const IConfiguration := TypeName("Microsoft.Extensions.Configuration.IConfiguration", false, {})
  const IConfigurationRoot := TypeName("Microsoft.Extensions.Configuration.IConfigurationRoot", false, {})

  /** Whether a value of runtime type `t` can be cast to `service`: it is
      that type or implements it. */
  predicate Implements(t: TypeName, service: TypeName) {
    t == service || service.name in t.interfaces
  }

  /** A hierarchical configuration source, flattened to `Section:Field` keys. */
  type Config = map<string, string>

  /** The objects that flow through resolution. Object identity of a
      constructed instance is its `id`; fresh allocation draws a new one. */
  datatype Obj =
    | Scalar(text: string)
    | Instance(typ: TypeName, id: nat, settings: map<string, string>)
    | Wrapped(inner: Obj)
    | Configuration(typ: TypeName, entries: Config)

  /** Every instance identity inside `o` was handed out before `n`: `o`
      existed when the allocation counter stood at `n`. */
  ghost predicate IdsBelow(o: Obj, n: nat) {
    match o
    case Scalar(_) => true
    case Instance(_, id, _) => id < n
    case Wrapped(inner) => IdsBelow(inner, n)
    case Configuration(_, _) => true
  }

  /** An object allocated at identity `id` or later is none of the objects
      that existed before `id`. */
  lemma NewIsNotExisting(o: Obj, existing: Obj, n: nat)
    requires IdsBelow(existing, n)
    requires (o.Instance? && n <= o.id) || (o.Wrapped? && o.inner.Instance? && n <= o.inner.id)
    ensures o != existing
  {
  }

  function RuntimeType(o: Obj): TypeName {
    match o
    case Scalar(_) => StringType
    case Instance(t, _, _) => t
    case Wrapped(_) => OptionsWrapperType
    case Configuration(t, _) => t
  }

  predicate IsDisposable(o: Obj) {
    RuntimeType(o).disposable
  }

  /** The exceptions the core can raise or propagate. */
  datatype Error =
    | ServiceNotRegistered(service: TypeName)
    | InvalidCast(service: TypeName)
    | ConstructorMismatch(implementation: TypeName)
    | DisposeFailed(instance: Obj)

  datatype Result<+T> = Success(value: T) | Failure(error: Error)

  /** The container at resolution time: which instance each registered
      service type resolves to. */
  datatype ServiceProvider = ServiceProvider(services: map<TypeName, Obj>)

  /** Every instance the container can hand out existed before `n`. */
  ghost predicate ContainerBelow(provider: ServiceProvider, n: nat) {
    forall t :: t in provider.services ==> IdsBelow(provider.services[t], n)
  }

  /** `GetRequiredService(type)`: the registered instance, or the
      container's not-found failure. */
  function GetRequiredService(provider: ServiceProvider, service: TypeName): Result<Obj> {
    if service in provider.services then Success(provider.services[service])
    else Failure(ServiceNotRegistered(service))
  }

  /** `GetRequiredService<TConfig>()`: a required lookup followed by the
      cast to the configuration interface. */
  function GetConfiguration(provider: ServiceProvider, service: TypeName): (r: Result<Config>)
    ensures service !in provider.services ==> r == Failure(ServiceNotRegistered(service))
    ensures service in provider.services ==>
              var o := provider.services[service];
              (r.Success? <==> o.Configuration? && Implements(o.typ, service))
              && (r.Success? ==> r.value == o.entries)
              && (r.Failure? ==> r.error == InvalidCast(service))
  {
    match GetRequiredService(provider, service)
    case Success(Configuration(t, entries)) =>
      if Implements(t, service) then Success(entries) else Failure(InvalidCast(service))
    case Success(_) => Failure(InvalidCast(service))
    case Failure(e) => Failure(e)
  }

  /** `new TImplementation()` followed by `configuration.Bind(key, instance)`:
      the fields that binding section `key` writes into a default instance
      of the given type, or the exception the default constructor or the
      binder raises (an unconvertible value, say); library behaviour, left
      uninterpreted. The instance itself is always the fresh one. */
  type Binder = (Config, string, TypeName) -> Result<map<string, string>>

  /** `ActivatorUtilities.CreateInstance(provider, type, arguments)`:
      constructor selection and injection of the remaining parameters, seen
      as the state the chosen constructor leaves in the new instance, or the
      exception selection or the constructor raises; reflection, left
      uninterpreted. */
  type Activator = (ServiceProvider, TypeName, seq<Obj>) -> Result<map<string, string>>

  /** One activation: a new instance of exactly `implementation`, allocated
      under identity `id`, or the activator's exception. */
  function Activate(activate: Activator, provider: ServiceProvider, implementation: TypeName,
                    arguments: seq<Obj>, id: nat): (r: Result<Obj>)
    ensures r.Success? <==> activate(provider, implementation, arguments).Success?
    ensures r.Success? ==> r.value.Instance? && RuntimeType(r.value) == implementation && r.value.id == id
    ensures r.Failure? ==> r.error == activate(provider, implementation, arguments).error
  {
    match activate(provider, implementation, arguments)
    case Success(state) => Success(Instance(implementation, id, state))
    case Failure(e) => Failure(e)
  }
}

=== FILE: service_collection_extensions.dfy ===
/** The registration adapter: the `AddSingleton`/`AddScoped`/`AddTransient`
    overloads that register a "resolve via specification" factory, and the
    factory itself. It uses the older copy of the builder that sits in the
    same source file; that copy differs from the standalone one only in
    requesting configuration as IConfigurationRoot. */
module Registration {
  import opened Runtime
  import opened Parameters

  /** `Build(serviceProvider)` of the embedded builder: the reference
      values of the descriptors, in order, up to the first descriptor that
      raises, with configuration requested as IConfigurationRoot. */
  function LegacyBuild(b: ParameterBuilder, provider: ServiceProvider, bind: Binder, next: nat): (r: Run)
    ensures var env := Env(provider, IConfigurationRoot, bind);
      && (r.failure.None? <==> forall i :: 0 <= i < |b.parameters| ==> Resolvable(env, b.parameters[i]))
      && (r.failure.None? ==> r.yielded == ExpectedArguments(env, b.parameters, next))
      && |r.yielded| <= |b.parameters|
      && (forall i :: 0 <= i < |r.yielded| ==>
            Resolvable(env, b.parameters[i]) && r.yielded[i] == ExpectedAt(env, b.parameters, i, next))
      && (r.failure.Some? ==>
            |r.yielded| < |b.parameters| && !Resolvable(env, b.parameters[|r.yielded|])
            && r.failure.value == FailureOf(env, b.parameters[|r.yielded|]))
      && next <= r.next
      && (r.failure.None? ==> r.next == next + OptionsCount(b.parameters))
  {
    var env := Env(provider, IConfigurationRoot, bind);
    BuildSucceedsIffAllResolvable(env, b.parameters, next);
    ResolvesInOrder(env, b.parameters, next);
    assert b.parameters[..|b.parameters|] == b.parameters;
    Evaluate(env, b.parameters, Start(next))
  }

  /** The two builder revisions resolve every specification alike when the
      container hands out the same configuration under both interfaces, and
      alike regardless of configuration when no options are requested. */
  lemma RevisionsAgree(b: ParameterBuilder, provider: ServiceProvider, bind: Binder, next: nat)
    ensures GetConfiguration(provider, IConfiguration) == GetConfiguration(provider, IConfigurationRoot)
      ==> LegacyBuild(b, provider, bind, next) == b.Build(provider, bind, next)
    ensures (forall i :: 0 <= i < |b.parameters| ==> !b.parameters[i].OptionsParameter?)
      ==> LegacyBuild(b, provider, bind, next) == b.Build(provider, bind, next)
  {
    var legacy := Env(provider, IConfigurationRoot, bind);
    var current := Env(provider, IConfiguration, bind);
    if GetConfiguration(provider, IConfiguration) == GetConfiguration(provider, IConfigurationRoot) {
      SameConfigurationSameResolution(legacy, current, b.parameters, Start(next));
    }
    if forall i :: 0 <= i < |b.parameters| ==> !b.parameters[i].OptionsParameter? {
      NoOptionsNeverNeedsConfiguration(legacy, current, b.parameters, next);
    }
  }

  /** The embedded builder requests IConfigurationRoot lazily, at most
      once per enumeration, and only after reaching an options descriptor. */
  lemma LegacyConfigurationFetchedAtMostOnce(b: ParameterBuilder, provider: ServiceProvider, bind: Binder, next: nat)
    ensures var r := LegacyBuild(b, provider, bind, next);
      && ConfigurationLookups(r.trace) <= 1
      && (ConfigurationLookups(r.trace) == 1 ==>
            exists i :: 0 <= i < |b.parameters| && i <= |r.yielded| && b.parameters[i].OptionsParameter?)
      && (r.configuration.Some? ==>
            GetConfiguration(provider, IConfigurationRoot) == Success(r.configuration.value))
  {
    ConfigurationFetchedAtMostOnce(Env(provider, IConfigurationRoot, bind), b.parameters, next);
    ResolvesInOrder(Env(provider, IConfigurationRoot, bind), b.parameters, next);
  }

  /** The embedded builder's cast is checked against the runtime type: an
      options descriptor fails with the container's exception when nothing
      is registered as `IConfigurationRoot`, and with the cast exception when
      what is registered is not a configuration object whose type implements
      `IConfigurationRoot` (a configuration section, say, which is only an
      `IConfiguration`). Either way it yields nothing. */
  lemma LegacyOptionsRequireConfigurationRoot(provider: ServiceProvider, bind: Binder, shape: TypeName,
                                              key: string, next: nat)
    ensures var r := LegacyBuild(EmptyBuilder.Options(shape, key), provider, bind, next);
      && (IConfigurationRoot !in provider.services ==>
            r.failure == Some(ServiceNotRegistered(IConfigurationRoot)) && r.yielded == [])
      && (IConfigurationRoot in provider.services ==>
            var o := provider.services[IConfigurationRoot];
            !(o.Configuration? && Implements(o.typ, IConfigurationRoot)) ==>
              r.failure == Some(InvalidCast(IConfigurationRoot)) && r.yielded == [])
  {
  }

  datatype Lifetime = Singleton | Scoped | Transient

  /** The registration callback, `Action<ParameterBuilder>`, seen as what
      it does to the builder it is handed, or the exception it raises. */
  type Configure = ParameterBuilder -> Result<ParameterBuilder>

  /** One registration: the service type requests are made for, the
      requested lifetime, and the factory `Resolve<TService, TImplementation>`
      closed over the callback. */
  datatype ServiceDescriptor = ServiceDescriptor(
    serviceType: TypeName,
    lifetime: Lifetime,
    implementation: TypeName,
    configure: Configure)

  type ServiceCollection = seq<ServiceDescriptor>

  /** Appends one factory registration; nothing already registered changes. */
  function Add(services: ServiceCollection, lifetime: Lifetime, serviceType: TypeName,
               implementation: TypeName, configure: Configure): (r: ServiceCollection)
    ensures |r| == |services| + 1
    ensures r[..|services|] == services
    ensures r[|services|].serviceType == serviceType
    ensures r[|services|].lifetime == lifetime
    ensures r[|services|].implementation == implementation
    ensures r[|services|].configure == configure
  {
    services + [ServiceDescriptor(serviceType, lifetime, implementation, configure)]
  }

  function AddSingleton(services: ServiceCollection, implementation: TypeName, configure: Configure): (r: ServiceCollection)
    ensures |r| == |services| + 1 && r[..|services|] == services
    ensures r[|services|].lifetime == Singleton
    ensures r[|services|].serviceType == implementation && r[|services|].implementation == implementation
    ensures r[|services|].configure == configure
  {
    Add(services, Singleton, implementation, implementation, configure)
  }

  function AddScoped(services: ServiceCollection, implementation: TypeName, configure: Configure): (r: ServiceCollection)
    ensures |r| == |services| + 1 && r[..|services|] == services
    ensures r[|services|].lifetime == Scoped
    ensures r[|services|].serviceType == implementation && r[|services|].implementation == implementation
    ensures r[|services|].configure == configure
  {
    Add(services, Scoped, implementation, implementation, configure)
  }

  function AddTransient(services: ServiceCollection, implementation: TypeName, configure: Configure): (r: ServiceCollection)
    ensures |r| == |services| + 1 && r[..|services|] == services
    ensures r[|services|].lifetime == Transient
    ensures r[|services|].serviceType == implementation && r[|services|].implementation == implementation
    ensures r[|services|].configure == configure
  {
    Add(services, Transient, implementation, implementation, configure)
  }

  function AddSingletonAs(services: ServiceCollection, serviceType: TypeName, implementation: TypeName,
                          configure: Configure): (r: ServiceCollection)
    ensures |r| == |services| + 1 && r[..|services|] == services
    ensures r[|services|].lifetime == Singleton
    ensures r[|services|].serviceType == serviceType && r[|services|].implementation == implementation
    ensures r[|services|].configure == configure
  {
    Add(services, Singleton, serviceType, implementation, configure)
  }

  function AddScopedAs(services: ServiceCollection, serviceType: TypeName, implementation: TypeName,
                       configure: Configure): (r: ServiceCollection)
    ensures |r| == |services| + 1 && r[..|services|] == services
    ensures r[|services|].lifetime == Scoped
    ensures r[|services|].serviceType == serviceType && r[|services|].implementation == implementation
    ensures r[|services|].configure == configure
  {
    Add(services, Scoped, serviceType, implementation, configure)
  }

  function AddTransientAs(services: ServiceCollection, serviceType: TypeName, implementation: TypeName,
                          configure: Configure): (r: ServiceCollection)
    ensures |r| == |services| + 1 && r[..|services|] == services
    ensures r[|services|].lifetime == Transient
    ensures r[|services|].serviceType == serviceType && r[|services|].implementation == implementation
    ensures r[|services|].configure == configure
  {
    Add(services, Transient, serviceType, implementation, configure)
  }

  /** The outcome of one factory invocation, with the next unused object
      identity. */
  datatype Resolution = Resolution(instance: Result<Obj>, next: nat)

  /** The identity the activated instance receives when the descriptors
      `ps` were resolved from identity `next`: the first one after the
      options instances they allocated. */
  function ActivationIdentity(ps: seq<Parameter>, next: nat): nat {
    next + OptionsCount(ps)
  }

  /** The outcome the factory promises for a callback that leaves the
      descriptors `ps` on the empty builder: activation of `implementation`
      with the reference arguments, into the first identity after the
      options instances, when every descriptor resolves; the first
      unresolvable descriptor's exception otherwise. */
  ghost predicate ActivatesWithArguments(instance: Result<Obj>, provider: ServiceProvider, bind: Binder,
                                         activate: Activator, implementation: TypeName,
                                         ps: seq<Parameter>, next: nat) {
    var env := Env(provider, IConfigurationRoot, bind);
    && ((forall i :: 0 <= i < |ps| ==> Resolvable(env, ps[i])) ==>
          instance == Activate(activate, provider, implementation, ExpectedArguments(env, ps, next),
                               ActivationIdentity(ps, next)))
    && (forall k :: 0 <= k < |ps| && !Resolvable(env, ps[k]) && (forall i :: 0 <= i < k ==> Resolvable(env, ps[i])) ==>
          instance == Failure(FailureOf(env, ps[k])))
  }

  /** `Resolve<TService, TImplementation>`: a fresh builder, the callback
      applied to it once, the arguments materialised, the implementation
      type activated with them into a new instance. An exception from the
      callback or from a descriptor propagates, and then nothing is
      activated. When the container's instances and the callback's literals
      existed before `next`, the activated instance is none of them. */
  function Resolve(provider: ServiceProvider, bind: Binder, activate: Activator,
                   implementation: TypeName, configure: Configure, next: nat): (r: Resolution)
    ensures configure(EmptyBuilder).Failure? ==>
      r.instance == Failure(configure(EmptyBuilder).error) && r.next == next
    ensures configure(EmptyBuilder).Success? ==>
      ActivatesWithArguments(r.instance, provider, bind, activate, implementation,
                             configure(EmptyBuilder).value.parameters, next)
    ensures next <= r.next
    ensures r.instance.Success? ==>
      r.instance.value.Instance? && RuntimeType(r.instance.value) == implementation
      && next <= r.instance.value.id < r.next
    ensures ContainerBelow(provider, next) && r.instance.Success? ==>
      forall t :: t in provider.services ==> r.instance.value != provider.services[t]
    ensures configure(EmptyBuilder).Success? && LiteralsBelow(configure(EmptyBuilder).value.parameters, next)
            && r.instance.Success? ==>
      var ps := configure(EmptyBuilder).value.parameters;
      forall i :: 0 <= i < |ps| && ps[i].ValueParameter? ==> r.instance.value != ps[i].value
  {
    match configure(EmptyBuilder)
    case Failure(e) => Resolution(Failure(e), next)
    case Success(b) =>
      var run := LegacyBuild(b, provider, bind, next);
      match run.failure
      case Some(e) => Resolution(Failure(e), run.next)
      case None =>
        var instance := Activate(activate, provider, implementation, run.yielded, run.next);
        Resolution(instance, if instance.Success? then run.next + 1 else run.next)
  }

  /** The container invoking a registered factory: it activates the
      entry's implementation type, never the service type it is registered
      under, with the arguments its callback specifies. */
  function Invoke(d: ServiceDescriptor, provider: ServiceProvider, bind: Binder, activate: Activator, next: nat): (r: Resolution)
    ensures d.configure(EmptyBuilder).Failure? ==>
      r.instance == Failure(d.configure(EmptyBuilder).error) && r.next == next
    ensures d.configure(EmptyBuilder).Success? ==>
      ActivatesWithArguments(r.instance, provider, bind, activate, d.implementation,
                             d.configure(EmptyBuilder).value.parameters, next)
    ensures next <= r.next
    ensures r.instance.Success? ==>
      r.instance.value.Instance? && RuntimeType(r.instance.value) == d.implementation
      && next <= r.instance.value.id < r.next
    ensures ContainerBelow(provider, next) && r.instance.Success? ==>
      forall t :: t in provider.services ==> r.instance.value != provider.services[t]
    ensures d.configure(EmptyBuilder).Success? && LiteralsBelow(d.configure(EmptyBuilder).value.parameters, next)
            && r.instance.Success? ==>
      var ps := d.configure(EmptyBuilder).value.parameters;
      forall i :: 0 <= i < |ps| && ps[i].ValueParameter? ==> r.instance.value != ps[i].value
  {
    Resolve(provider, bind, activate, d.implementation, d.configure, next)
  }

  /** Invoking a registered factory twice, threading the identity counter,
      creates two different instances, even when the callback specifies
      only literals and so the arguments are equal. */
  lemma ReinvokingCreatesDistinctInstances(d: ServiceDescriptor, provider: ServiceProvider, bind: Binder,
                                           activate: Activator, next: nat)
    ensures var r1 := Invoke(d, provider, bind, activate, next);
            var r2 := Invoke(d, provider, bind, activate, r1.next);
      r1.instance.Success? && r2.instance.Success? ==> r1.instance.value != r2.instance.value
  {
    var r1 := Invoke(d, provider, bind, activate, next);
    var r2 := Invoke(d, provider, bind, activate, r1.next);
    if r1.instance.Success? && r2.instance.Success? {
      assert r1.instance.value.id < r1.next <= r2.instance.value.id;
    }
  }

  /** When the callback appends the descriptors `ps` to whatever builder it
      is given, the factory activates the implementation type with exactly
      the resolved arguments of `ps`, in order: the builder it hands the
      callback is empty, and the callback runs once. If a descriptor cannot
      be resolved, activation never happens and that descriptor's exception
      is the outcome. */
  lemma ResolveActivatesWithBuiltArguments(provider: ServiceProvider, bind: Binder, activate: Activator,
                                           implementation: TypeName, ps: seq<Parameter>,
                                           configure: Configure, next: nat)
    requires forall b :: configure(b) == Success(ParameterBuilder(b.parameters + ps))
    ensures var env := Env(provider, IConfigurationRoot, bind);
            var r := Resolve(provider, bind, activate, implementation, configure, next);
      && ((forall i :: 0 <= i < |ps| ==> Resolvable(env, ps[i])) ==>
            r.instance == Activate(activate, provider, implementation, ExpectedArguments(env, ps, next),
                                   ActivationIdentity(ps, next)))
      && (forall k :: 0 <= k < |ps| && !Resolvable(env, ps[k]) && (forall i :: 0 <= i < k ==> Resolvable(env, ps[i])) ==>
            r.instance == Failure(FailureOf(env, ps[k])))
  {
    var r := Resolve(provider, bind, activate, implementation, configure, next);
    assert configure(EmptyBuilder) == Success(ParameterBuilder([] + ps));
    assert [] + ps == ps;
    assert ActivatesWithArguments(r.instance, provider, bind, activate, implementation, ps, next);
  }

  /** A registered entry whose callback appends `ps` activates its
      implementation type as the factory promises for `ps`. */
  lemma InvokeAppendingCallback(d: ServiceDescriptor, ps: seq<Parameter>, provider: ServiceProvider,
                                bind: Binder, activate: Activator, next: nat)
    requires forall b :: d.configure(b) == Success(ParameterBuilder(b.parameters + ps))
    ensures ActivatesWithArguments(Invoke(d, provider, bind, activate, next).instance, provider, bind, activate,
                                   d.implementation, ps, next)
  {
    ResolveActivatesWithBuiltArguments(provider, bind, activate, d.implementation, ps, d.configure, next);
  }

  /** The entry each of the six overloads appends, in declaration order,
      for one implementation type and one interface type. */
  function NewEntries(services: ServiceCollection, serviceType: TypeName, implementation: TypeName,
                      configure: Configure): (ds: seq<ServiceDescriptor>)
    ensures |ds| == 6
    ensures forall j :: 0 <= j < 6 ==> ds[j].implementation == implementation && ds[j].configure == configure
    ensures forall j :: 0 <= j < 3 ==> ds[j].serviceType == implementation
    ensures forall j :: 3 <= j < 6 ==> ds[j].serviceType == serviceType
  {
    var n := |services|;
    [AddSingleton(services, implementation, configure)[n],
     AddScoped(services, implementation, configure)[n],
     AddTransient(services, implementation, configure)[n],
     AddSingletonAs(services, serviceType, implementation, configure)[n],
     AddScopedAs(services, serviceType, implementation, configure)[n],
     AddTransientAs(services, serviceType, implementation, configure)[n]]
  }

  /** Whichever of the six overloads registers it, and whatever service type
      it is registered under, the new factory activates the implementation
      type with the arguments the callback specifies, into a new instance,
      or raises the first failing descriptor's exception. */
  lemma RegisteredFactoryActivatesImplementation(services: ServiceCollection, serviceType: TypeName,
                                                 implementation: TypeName, ps: seq<Parameter>,
                                                 configure: Configure, provider: ServiceProvider,
                                                 bind: Binder, activate: Activator, next: nat)
    requires forall b :: configure(b) == Success(ParameterBuilder(b.parameters + ps))
    ensures var env := Env(provider, IConfigurationRoot, bind);
            var ds := NewEntries(services, serviceType, implementation, configure);
      && ((forall i :: 0 <= i < |ps| ==> Resolvable(env, ps[i])) ==>
            forall j :: 0 <= j < 6 ==>
              Invoke(ds[j], provider, bind, activate, next).instance
                == Activate(activate, provider, implementation, ExpectedArguments(env, ps, next), ActivationIdentity(ps, next)))
      && (forall k :: 0 <= k < |ps| && !Resolvable(env, ps[k]) && (forall i :: 0 <= i < k ==> Resolvable(env, ps[i])) ==>
            forall j :: 0 <= j < 6 ==>
              Invoke(ds[j], provider, bind, activate, next).instance == Failure(FailureOf(env, ps[k])))
  {
    var env := Env(provider, IConfigurationRoot, bind);
    var ds := NewEntries(services, serviceType, implementation, configure);
    if forall i :: 0 <= i < |ps| ==> Resolvable(env, ps[i]) {
      forall j | 0 <= j < 6
        ensures Invoke(ds[j], provider, bind, activate, next).instance
          == Activate(activate, provider, implementation, ExpectedArguments(env, ps, next), ActivationIdentity(ps, next))
      {
        InvokeAppendingCallback(ds[j], ps, provider, bind, activate, next);
      }
    }
    forall k, j | 0 <= k < |ps| && !Resolvable(env, ps[k]) && (forall i :: 0 <= i < k ==> Resolvable(env, ps[i]))
                  && 0 <= j < 6
      ensures Invoke(ds[j], provider, bind, activate, next).instance == Failure(FailureOf(env, ps[k]))
    {
      InvokeAppendingCallback(ds[j], ps, provider, bind, activate, next);
    }
  }
}
